=== FILE: README.md ===
# PDoA plotting scripts: a Dafny model

This project models the discrete logic in three measurement-plotting scripts of the PDoA
(phase difference of arrival) repository. It covers everything between "the directory holds
these CSV files" and "matplotlib draws".

- `rotating_RX/plot_csv_data.py` draws one panel per CSV file on a nearly square grid.
  - Files whose stem is a number come first, in numeric order, and the sort is stable.
  - A file that cannot be read shows an error note in its own panel.
  - Panels left over are switched off.
  - With no files, the script stops before any figure exists.
- `rotating_RX/plot_mean_with_error.py` and `rotating_TX/plot_radiation_pattern.py` share one pipeline:
  1. Each file's stem is parsed to an index, and the index gives the angle `index * 360/16`.
  2. A per-index rule corrects the sign of the samples: negate the negatives, or negate the positives.
  3. The corrected samples are reduced to a mean, plus a spread in the first script.
  4. The result is stored in a dictionary keyed by angle, and the angles are read back in ascending order.
  5. The radiation pattern is closed by repeating its first point.

Modules, one per file:

- `wrappers.dfy` (`Wrappers`): `Option` and `Result`.
- `text.dfy` (`Text`):
  - `os.path.splitext(name)[0]`;
  - `str.isdigit`;
  - `int(...)` on a string, with surrounding whitespace, sign, underscores and leading zeros, without CPython's 4300-digit limit;
  - `str(i)`, also without that limit.
- `stats.dfy` (`Stats`): `Series.mean()` and the ddof = 1 variance, with NaN for too few values.
- `csv_grid.dfy` (`CsvGrid`):
  - the file sort key and the stable sort;
  - the grid dimensions;
  - the figure as a class whose `axes` array is filled and then switched off in place.
- `angular.dfy` (`Angular`): the shared pipeline. The correction table and the reduction are parameters.
  - The column is corrected in place in an array.
  - The dictionary is built by a loop, proved against the recursive function `Collected`.
- `mean_with_error.dfy` (`MeanWithError`) and `radiation_pattern.dfy` (`RadiationPattern`): each script's correction table, its reduction, and its arrangement of the output.

File reads are a parameter `load` from file name to what the read gives, either the data or the
exception's message. The list `glob` finds is the parameter `found` or `files`.

## Model

| member | source | states |
|---|---|---|
| Text.Stem | PDoA_plot/32cm/rotating_RX/plot_csv_data.py:8 | The stem is a prefix of the name. When it is shorter, it is followed by the last dot of the name and is not made only of dots, as `os.path.splitext` requires. |
| Text.StemOfCsvName | PDoA_plot/32cm/rotating_RX/plot_csv_data.py:8 | The stem of `<base>.csv` is `<base>` when the base does not start with a dot. |
| Text.Decimal | PDoA_plot/32cm/rotating_RX/plot_csv_data.py:8 | `str(n)` of a natural number passes `isdigit`. |
| Text.DecimalRoundTrip | PDoA_plot/32cm/rotating_RX/plot_csv_data.py:8 | Reading back the digits of `str(n)` gives `n`. |
| Text.ParseIntOfDigits | PDoA_plot/32cm/rotating_RX/plot_csv_data.py:8 | On a stem that passes `isdigit`, `int` succeeds with the decimal value of the digits. This is the key the sort uses. |
| Text.Strip | PDoA_plot/32cm/rotating_RX/plot_mean_with_error.py:17 | The stripped string is empty exactly when the input is all whitespace. Otherwise it starts and ends with a non-space. It is the input's characters from the first non-space on, and everything after it in the input is whitespace. |
| Text.StripPadded | PDoA_plot/32cm/rotating_RX/plot_mean_with_error.py:17 | Stripping `before + t + after`, where `before` and `after` are whitespace and `t` has no whitespace at its ends, gives exactly `t`. |
| Text.ParseInt | PDoA_plot/32cm/rotating_RX/plot_mean_with_error.py:17 | `int(s)` succeeds only on a string that contains a digit. `ParseIntShape` states the full shape of what it accepts. |
| Text.ParseIntPadded | PDoA_plot/32cm/rotating_RX/plot_mean_with_error.py:17 | `int` ignores surrounding whitespace: `int(before + t + after)` gives the same result as the bare literal `t`. |
| Text.ParseIntShowInt | PDoA_plot/32cm/rotating_RX/plot_mean_with_error.py:17 | `int(str(i)) == i` for every integer, negative ones included. The 4300-digit limit is not modelled (see "## Left out"). |
| Text.NegativeDigits | PDoA_plot/32cm/rotating_RX/plot_mean_with_error.py:17 | `int("-" + digits)` is minus the digits' value, below the 4300-digit limit, which is not modelled. |
| Text.ParseIntNeedsDigit | PDoA_plot/32cm/rotating_RX/plot_mean_with_error.py:17 | `int` raises on every string without a digit. |
| Text.ParseIntShape | PDoA_plot/32cm/rotating_RX/plot_mean_with_error.py:17 | `int(s)` succeeds exactly when `s`, stripped of whitespace, is an optional sign followed by digits, with single underscores only between two digits. This holds for literals within the 4300-digit limit, which is not modelled. |
| Text.SignedShape | PDoA_plot/32cm/rotating_RX/plot_mean_with_error.py:17 | A literal that starts with `+` or `-` is accepted exactly when what follows the sign is digit groups. |
| Text.UnsignedShape | PDoA_plot/32cm/rotating_RX/plot_mean_with_error.py:17 | A literal without a sign is accepted exactly when it is digit groups. |
| Text.RejectsUnshaped | PDoA_plot/32cm/rotating_RX/plot_mean_with_error.py:17 | `int` raises on a string without surrounding whitespace that is not shaped like an integer literal. |
| Text.NonIntegerStems | PDoA_plot/32cm/rotating_RX/plot_mean_with_error.py:17 | `int` raises on stems that hold a digit but are not integer literals: `run3`, `1.5` and `3a`. |
| Text.MisplacedUnderscores | PDoA_plot/32cm/rotating_RX/plot_mean_with_error.py:17 | `int` raises on `1_`, `1__2` and `_1`, where an underscore is not between two digits, and on a lone `-`. |
| CsvGrid.KeyOf | PDoA_plot/32cm/rotating_RX/plot_csv_data.py:8 | The key is a number exactly when the stem passes `isdigit`; the number is the stem's decimal value; every other name sorts as infinity. |
| CsvGrid.Insert | PDoA_plot/32cm/rotating_RX/plot_csv_data.py:8 | Inserting into a sorted sequence keeps it sorted, adds exactly the element, and keeps every key bound the element also meets. |
| CsvGrid.StableSort | PDoA_plot/32cm/rotating_RX/plot_csv_data.py:8 | `sorted(key=...)` returns a permutation of its input, ordered by key. |
| CsvGrid.InsertWithKey | PDoA_plot/32cm/rotating_RX/plot_csv_data.py:8 | Insertion puts the element after every element with an equal key. |
| CsvGrid.StableSortKeepsOrder | PDoA_plot/32cm/rotating_RX/plot_csv_data.py:8 | For every key, the elements with that key keep their input order (stability). |
| CsvGrid.SortFiles | PDoA_plot/32cm/rotating_RX/plot_csv_data.py:8 | The sorted list holds the files found, each as often as found. |
| CsvGrid.SortedFileOrder | PDoA_plot/32cm/rotating_RX/plot_csv_data.py:8 | Every file before an all-digit file is an all-digit file, with a stem value that is not greater. |
| CsvGrid.OtherFilesKeepInputOrder | PDoA_plot/32cm/rotating_RX/plot_csv_data.py:8 | The files whose stem is not all digits appear in the order in which they were found. |
| CsvGrid.CeilSqrt | PDoA_plot/32cm/rotating_RX/plot_csv_data.py:17 | `c * c >= n` and `(c - 1) * (c - 1) < n`, and `c` is positive for positive `n`. |
| CsvGrid.CeilSqrtIsLeast | PDoA_plot/32cm/rotating_RX/plot_csv_data.py:17 | No `d` with `d * d >= n` is below `n_cols`: it is the least such number. |
| CsvGrid.GridFor | PDoA_plot/32cm/rotating_RX/plot_csv_data.py:11-18 | There is no grid exactly when there are no files. Otherwise the column count is positive and is the integer ceiling of the square root. |
| CsvGrid.GridHoldsEveryFile | PDoA_plot/32cm/rotating_RX/plot_csv_data.py:18 | `(rows - 1) * cols < n <= rows * cols`. Every file index is a panel, and no row is entirely unused. |
| CsvGrid.GridNearlySquare | PDoA_plot/32cm/rotating_RX/plot_csv_data.py:16-18 | `cols - 1 <= rows <= cols`. |
| CsvGrid.PanelFor | PDoA_plot/32cm/rotating_RX/plot_csv_data.py:32-65 | A file that was read becomes a chart; a file whose reading raised becomes an error note. |
| CsvGrid.Panels | PDoA_plot/32cm/rotating_RX/plot_csv_data.py:31-69 | The saved figure: panel `i` shows file `i`, exactly the panels from `n` on are hidden, and exactly the failed files' panels hold error notes. |
| CsvGrid.ReadFailureStaysInItsPanel | PDoA_plot/32cm/rotating_RX/plot_csv_data.py:31-65 | Two readers that differ on one file give figures that differ only in the panels showing that file. |
| CsvGrid.Figure.constructor | PDoA_plot/32cm/rotating_RX/plot_csv_data.py:21-28 | The flattened axes array has `rows * cols` blank panels. |
| CsvGrid.Figure.Draw | PDoA_plot/32cm/rotating_RX/plot_csv_data.py:32-65 | Drawing a file changes its own panel and no other. |
| CsvGrid.Figure.HideUnused | PDoA_plot/32cm/rotating_RX/plot_csv_data.py:68-69 | Every panel from `n_files` on is switched off, and the panels below it are untouched. |
| CsvGrid.DrawAll | PDoA_plot/32cm/rotating_RX/plot_csv_data.py:31-65 | After the loop, panel `i` holds file `i`'s chart or error note for every file. A failure does not stop the loop. |
| CsvGrid.PlotCsvData | PDoA_plot/32cm/rotating_RX/plot_csv_data.py:8-69 | There is no figure exactly when no file was found. Otherwise the figure has the `GridFor` grid and exactly `rows * cols` panels, at least one per file. The panels are exactly what `Panels` describes for the sorted files, so exactly the slots from `n_files` to `rows * cols - 1` are hidden. |
| Stats.Mean | PDoA_plot/32cm/rotating_RX/plot_mean_with_error.py:33 | The mean is NaN exactly for an empty column. |
| Stats.SquaredDeviation | PDoA_plot/32cm/rotating_RX/plot_mean_with_error.py:34 | The sum of squared deviations is never negative, and is zero when every value equals the centre. |
| Stats.SampleVariance | PDoA_plot/32cm/rotating_RX/plot_mean_with_error.py:34 | The ddof = 1 variance is NaN exactly below two values and otherwise not negative. |
| Stats.SumBounds | PDoA_plot/32cm/rotating_RX/plot_mean_with_error.py:33 | Bounds on the values bound the sum by `n * lo` and `n * hi`. |
| Stats.MeanBounds | PDoA_plot/32cm/rotating_RX/plot_mean_with_error.py:33 | The mean of a non-empty column lies between any bounds of its values. |
| Stats.SumNonNegative | PDoA_plot/32cm/rotating_RX/plot_mean_with_error.py:33 | Non-negative values have a non-negative sum. |
| Stats.SumNonPositive | PDoA_plot/32cm/rotating_RX/plot_mean_with_error.py:33 | Non-positive values have a non-positive sum. |
| Stats.MeanNonNegative | PDoA_plot/32cm/rotating_RX/plot_mean_with_error.py:33 | Non-negative values have a non-negative mean. |
| Stats.MeanNonPositive | PDoA_plot/32cm/rotating_RX/plot_mean_with_error.py:33 | Non-positive values have a non-positive mean. |
| Angular.Angle | PDoA_plot/32cm/rotating_RX/plot_mean_with_error.py:20 | Indices 0 to 15 give angles in `[0, 360)`. Larger indices give 360 degrees or more, and negative ones give negative angles, because nothing wraps them. |
| Angular.AngleOrder | PDoA_plot/32cm/rotating_RX/plot_mean_with_error.py:17-20 | Angles are ordered as their indices are, and distinct indices give distinct angles. |
| Angular.IndexOf | PDoA_plot/32cm/rotating_RX/plot_mean_with_error.py:17 | A stem that passes `isdigit` gives its decimal value. Any index comes from a stem containing a digit. |
| Angular.IndexOfCsvName | PDoA_plot/32cm/rotating_RX/plot_mean_with_error.py:17 | The file `<i>.csv` has index `i` for every integer `i`, e.g. `'0.csv' -> 0`. |
| Angular.Corrected | PDoA_plot/32cm/rotating_RX/plot_mean_with_error.py:27-30 | Correction keeps the length. `Keep` changes nothing. Negating the negatives gives values >= 0, negates each negative value and leaves the others alone. Negating the positives is the mirror image. |
| Angular.CorrectionIdempotent | PDoA_plot/32cm/rotating_RX/plot_mean_with_error.py:27-30 | Correcting twice is correcting once. |
| Angular.ApplyRule | PDoA_plot/32cm/rotating_RX/plot_mean_with_error.py:28 | The masked assignment done in place leaves the array holding `Corrected` of its old contents. |
| Angular.Entry | PDoA_plot/32cm/rotating_RX/plot_mean_with_error.py:17-36 | A file's step fails with `MalformedIndex` when `int` rejects its stem, and with `ReadFailed` when the read raises. Otherwise it succeeds, keyed by the angle of its index. |
| Angular.Aggregate | PDoA_plot/32cm/rotating_RX/plot_mean_with_error.py:15-36 | The loop returns exactly `Collected` of the files: the first fault, or the dictionary. |
| Angular.Collected | PDoA_plot/32cm/rotating_RX/plot_mean_with_error.py:12-36 | The dictionary has at most one entry per file. The lemmas below state which fault ends a run, which keys it has and which value each holds. |
| Angular.FaultIsFinal | PDoA_plot/32cm/rotating_RX/plot_mean_with_error.py:15-23 | A fault in a prefix of the files is the fault of the whole run. |
| Angular.CollectedSucceeds | PDoA_plot/32cm/rotating_RX/plot_mean_with_error.py:15-36 | The run succeeds exactly when every file's step succeeds. |
| Angular.FirstFaultAborts | PDoA_plot/32cm/rotating_RX/plot_mean_with_error.py:15-23 | The first failing file decides the fault the run ends with. |
| Angular.MalformedNameAborts | PDoA_plot/32cm/rotating_RX/plot_mean_with_error.py:17 | A file whose stem is not an integer aborts the run when every earlier file could be processed. |
| Angular.StoredAnglesAppend | PDoA_plot/32cm/rotating_RX/plot_mean_with_error.py:36 | One more successful file adds exactly its angle to the set of stored angles. |
| Angular.CollectedKeys | PDoA_plot/32cm/rotating_RX/plot_mean_with_error.py:36 | The dictionary's keys are exactly the angles the files' steps produce. |
| Angular.KeysAreIndexAngles | PDoA_plot/32cm/rotating_RX/plot_mean_with_error.py:17-36 | After a successful run, the keys are exactly the angles of the files' indices. |
| Angular.AnglesOfSize | PDoA_plot/32cm/rotating_RX/plot_mean_with_error.py:17-20 | There are as many angles as distinct indices. |
| Angular.LastWriteWins | PDoA_plot/32cm/rotating_RX/plot_mean_with_error.py:36 | A file's statistic is the one stored under its angle when no later file stores under that angle. |
| Angular.LastFileWins | PDoA_plot/32cm/rotating_RX/plot_mean_with_error.py:36 | A later file with the same index overwrites an earlier one. The entry under a file's angle is that file's corrected statistic when no later file has its index. |
| Angular.Least | PDoA_plot/32cm/rotating_RX/plot_mean_with_error.py:39 | The least key is a key and is below every other key. |
| Angular.SortedAngles | PDoA_plot/32cm/rotating_RX/plot_mean_with_error.py:39 | `sorted(data.keys())` holds every key once, and nothing else, in strictly ascending order. |
| MeanWithError.CorrectionRule | PDoA_plot/32cm/rotating_RX/plot_mean_with_error.py:27-30 | Exactly indices 3, 6 and 11 negate negatives, and exactly index 12 negates positives. Every other index keeps its values. The rules are mutually exclusive. |
| MeanWithError.Summarize | PDoA_plot/32cm/rotating_RX/plot_mean_with_error.py:33-34 | The mean is NaN exactly for no samples, and the spread exactly for fewer than two. The spread is never negative. |
| MeanWithError.CorrectedMeanSign | PDoA_plot/32cm/rotating_RX/plot_mean_with_error.py:27-33 | For non-empty samples the corrected mean is a number: >= 0 for indices 3, 6 and 11, and <= 0 for index 12. |
| MeanWithError.CorrectionExamples | PDoA_plot/32cm/rotating_RX/plot_mean_with_error.py:27-33 | `[-2, 3, -1]` under index 3 becomes `[2, 3, 1]` with mean 2. `[2, -3, 1]` under index 12 becomes `[-2, -3, -1]` with mean -2. |
| MeanWithError.Summaries | PDoA_plot/32cm/rotating_RX/plot_mean_with_error.py:12-36 | The script's dictionary exists exactly when every file's stem is an integer and every file can be read. It has at most one entry per file. |
| MeanWithError.Arrange | PDoA_plot/32cm/rotating_RX/plot_mean_with_error.py:39-41 | The angles are strictly ascending and are exactly the keys. `means` and `stds` have the same length and hold, at each position, what is stored under that angle. |
| MeanWithError.Run | PDoA_plot/32cm/rotating_RX/plot_mean_with_error.py:8-41 | A fault aborts the run with that fault. Otherwise the output is the arranged dictionary. |
| MeanWithError.OneBarPerIndex | PDoA_plot/32cm/rotating_RX/plot_mean_with_error.py:36-41 | The output has one angle per distinct file index. |
| MeanWithError.BarOfFile | PDoA_plot/32cm/rotating_RX/plot_mean_with_error.py:17-41 | Some position holds a file's angle together with its corrected mean and spread, unless a later file has the same index. |
| RadiationPattern.CorrectionRule | PDoA_plot/32cm/rotating_TX/plot_radiation_pattern.py:26-31 | Exactly index 6 negates positives, and exactly indices 13 and 14 negate negatives. Every other index keeps its values. The rules are mutually exclusive. |
| RadiationPattern.CorrectedMeanSign | PDoA_plot/32cm/rotating_TX/plot_radiation_pattern.py:26-33 | For non-empty samples the corrected mean is a number: <= 0 for index 6, and >= 0 for indices 13 and 14. |
| RadiationPattern.Means | PDoA_plot/32cm/rotating_TX/plot_radiation_pattern.py:12-35 | The script's dictionary exists exactly when every file's stem is an integer and every file can be read. It has at most one entry per file. |
| RadiationPattern.Arrange | PDoA_plot/32cm/rotating_TX/plot_radiation_pattern.py:38-39 | The angles are strictly ascending and are exactly the keys. `values[i]` is the mean stored for `angles[i]`. |
| RadiationPattern.Close | PDoA_plot/32cm/rotating_TX/plot_radiation_pattern.py:45-46 | Closing fails exactly on an empty sequence. Otherwise the result has length n + 1, starts with the sequence, and ends with its first element. |
| RadiationPattern.ClosePattern | PDoA_plot/32cm/rotating_TX/plot_radiation_pattern.py:45-46 | Both series are closed, and closing fails exactly when there is no angle. |
| RadiationPattern.Run | PDoA_plot/32cm/rotating_TX/plot_radiation_pattern.py:8-46 | A read fault aborts with that fault. A run with no files fails at closing. Otherwise the output is the closed, arranged dictionary. |
| RadiationPattern.ClosedPatternShape | PDoA_plot/32cm/rotating_TX/plot_radiation_pattern.py:38-46 | The closed pattern has one more point than there are angles. Its first points ascend strictly with the stored means, and the last point repeats the first. |
| RadiationPattern.OnePointPerIndex | PDoA_plot/32cm/rotating_TX/plot_radiation_pattern.py:35-39 | There is one point per distinct file index before the closing point. |
| RadiationPattern.PointOfFile | PDoA_plot/32cm/rotating_TX/plot_radiation_pattern.py:17-39 | Some point holds a file's angle and its corrected mean, unless a later file has the same index. |

## Left out

- CSV parsing (`pd.read_csv`), the `Timestamp` conversion to seconds and the choice of numeric columns when `Value` is missing are library behaviour. A read is the parameter `load`.
  - In `plot_csv_data.py` a read gives whether the file had timestamps and whether it had a `Value` column, or the exception's message.
  - In the angular scripts a read gives the `Value` column, or the reason it could not be read.
- Missing values (NaN) inside a column are not modelled; `Series.mean()` would skip them. Columns are sequences of reals.
- Floating point is not modelled. Means, variances and angles are exact reals, and `ceil(sqrt(n))` is the integer least `c` with `c * c >= n`.
- MeanWithError.Summarize: reports the ddof = 1 sample variance, not its square root. `Series.std()` is the square root of this value, and real square roots are outside the model.
- `np.deg2rad` is not modelled. The radiation pattern keeps its angles in degrees, and a positive scaling changes neither their order nor the closing.
- Text.ParseIntShape, Text.ParseIntShowInt, Text.NegativeDigits: CPython's limit on integer string conversion (`sys.get_int_max_str_digits()`, 4300 digits by default since 3.11 and the 3.7-3.10 security releases) is not modelled. Above it, `int` of a decimal literal and `str(i)` raise `ValueError`, while the model accepts and prints integers of any length. No stem the scripts see reaches the limit: a file name has at most 255 bytes, so a stem before `.csv` has at most 251 characters.
- Angular.Angle: angles are `index * 22.5` with no reduction modulo 360, as the scripts compute them. An index of 16 or more therefore gives an angle of 360 degrees or more, not a wrapped one.
- CsvGrid.KeyOf: digits are the ASCII digits, and stems with other Unicode digits are not modelled.
  - A stem of other Unicode decimal digits, such as `٣`, passes `isdigit` and `int` accepts it, so it sorts by its value.
  - A stem that passes `isdigit` but is not decimal, such as `²`, makes the key's `int` raise inside `sorted`. The script then stops at line 8 of `plot_csv_data.py`, before the check for no files and before any figure exists.
- `os.path.basename` is the identity: the names `glob('*.csv')` returns have no directory part.
- The order in which `glob` lists files is an input, not modelled.
- Rendering, styling, tick labels, legends, `savefig`, `show` and console output are not modelled. This includes the message and `exit()` when no file is found (modelled as no figure) and the statistics printed at the end of the angular scripts. In `plot_mean_with_error.py`, `means.min()` at line 80 raises on a run without files after the plot is saved; `MeanWithError.Run` returns the empty series there.

=== FILE: angular.dfy ===
/**
 * The pipeline rotating_RX/plot_mean_with_error.py and
 * rotating_TX/plot_radiation_pattern.py share (their lines 8-41): each
 * CSV file is named after the index of a rotation position; the index
 * gives an angle, an index-specific rule corrects the sign of the file's
 * samples, the corrected samples are reduced to a statistic, the
 * statistic is stored in a dictionary under the angle, and the angles
 * are read back in ascending order.
 *
 * The correction table and the reduction differ between the two scripts
 * and are parameters here; each script's module fixes them.
 */
module Angular {
  import opened Wrappers
  import opened Text

  // ---------------------------------------------------------------------
  // Index and angle (lines 9, 17, 20)
  // ---------------------------------------------------------------------

  /** Sixteen positions around the circle: `360 / 16` degrees apart. */
  const AngleStep: real := 360.0 / 16.0

  /** The angle of an index, in degrees. It is not reduced modulo 360. */
  function Angle(index: int): (a: real)
    ensures 0 <= index < 16 ==> 0.0 <= a < 360.0
    ensures index >= 16 ==> a >= 360.0
    ensures index < 0 ==> a < 0.0
  {
    index as real * AngleStep
  }

  /** Angles are in the order of their indices; distinct indices never share an angle. */
  lemma AngleOrder(i: int, j: int)
    ensures i < j <==> Angle(i) < Angle(j)
    ensures i == j <==> Angle(i) == Angle(j)
  {
  }

  /** The index a file name carries, or None when `int` rejects its stem. */
  function IndexOf(name: string): (r: Option<int>)
    ensures IsDigitString(Stem(name)) ==> r == Some(DecimalValue(Stem(name)))
    ensures r.Some? ==> exists k :: 0 <= k < |Stem(name)| && IsDigit(Stem(name)[k])
  {
    var stem := Stem(name);
    // Both branches parse the stem; the first only brings in the lemma for all-digit stems.
    if IsDigitString(stem) then
      ParseIntOfDigits(stem);
      ParseInt(stem)
    else ParseInt(stem)
  }

  /** The file `<i>.csv` has index `i`, for every integer `i`. */
  lemma IndexOfCsvName(i: int)
    ensures IndexOf(ShowInt(i) + ".csv") == Some(i)
  {
    var base := ShowInt(i);
    assert base != [] && base[0] != '.' by {
      if i < 0 {
        assert base[0] == '-';
      } else {
        assert IsDigit(base[0]);
      }
    }
    StemOfCsvName(base);
    ParseIntShowInt(i);
  }

  // ---------------------------------------------------------------------
  // Sign correction (lines 25-31)
  // ---------------------------------------------------------------------

  /** The sign-correction rules a file index may be subject to. */
  datatype Rule = Keep | NegateNegatives | NegatePositives

  function Fix(v: real, rule: Rule): real {
    match rule
    case Keep => v
    case NegateNegatives => if v < 0.0 then -v else v
    case NegatePositives => if v > 0.0 then -v else v
  }

  /**
   * The column after `df.loc[mask, 'Value'] = -df.loc[mask, 'Value']`
   * with the rule's mask: the values the mask selects are negated, the
   * others are left as they are.
   */
  function Corrected(values: seq<real>, rule: Rule): (r: seq<real>)
    ensures |r| == |values|
    ensures rule == Keep ==> r == values
    ensures rule == NegateNegatives ==> forall i :: 0 <= i < |r| ==>
      && r[i] >= 0.0
      && (values[i] < 0.0 ==> r[i] == -values[i])
      && (values[i] >= 0.0 ==> r[i] == values[i])
    ensures rule == NegatePositives ==> forall i :: 0 <= i < |r| ==>
      && r[i] <= 0.0
      && (values[i] > 0.0 ==> r[i] == -values[i])
      && (values[i] <= 0.0 ==> r[i] == values[i])
  {
    seq(|values|, i requires 0 <= i < |values| => Fix(values[i], rule))
  }

  /** Correcting a corrected column changes nothing. */
  lemma CorrectionIdempotent(values: seq<real>, rule: Rule)
    ensures Corrected(Corrected(values, rule), rule) == Corrected(values, rule)
  {
  }

  /**
   * The masked negation, done in place on the column: afterwards the
   * column holds the corrected values.
   */
  method ApplyRule(column: array<real>, rule: Rule)
    modifies column
    ensures column[..] == Corrected(old(column[..]), rule)
  {
    for k := 0 to column.Length
      invariant forall i :: 0 <= i < k ==> column[i] == Fix(old(column[i]), rule)
      invariant forall i :: k <= i < column.Length ==> column[i] == old(column[i])
    {
      column[k] := Fix(column[k], rule);
    }
  }

  // ---------------------------------------------------------------------
  // The dictionary of lines 12-36
  // ---------------------------------------------------------------------

  /** What reading a file gives: its `Value` column, or the reason the read raised. */
  datatype Column = Samples(values: seq<real>) | Unreadable(reason: string)

  /** The errors that abort a run. */
  datatype Fault =
    | MalformedIndex(name: string)              // `int(stem)` raised ValueError
    | ReadFailed(name: string, reason: string)  // `pd.read_csv` or the `Value` lookup raised
    | NoAngles                                  // `angles_rad[0]` on an empty array raised IndexError

  /** One file's contribution to the dictionary: the key and the statistic stored under it. */
  datatype Reading<S> = Reading(angle: real, stat: S)

  /**
   * One pass of the loop body for file `name`: parse the index (or abort),
   * read the column (or abort), correct it with the table's rule for the
   * index and reduce it.
   */
  function Entry<S>(name: string, load: string -> Column, table: int -> Rule, reduce: seq<real> -> S)
    : (r: Result<Reading<S>, Fault>)
    ensures IndexOf(name).None? ==> r == Err(MalformedIndex(name))
    ensures IndexOf(name).Some? && load(name).Unreadable? ==> r == Err(ReadFailed(name, load(name).reason))
    ensures r.Ok? <==> IndexOf(name).Some? && load(name).Samples?
    ensures r.Ok? ==> r.value.angle == Angle(IndexOf(name).value)
  {
    match IndexOf(name)
    case None => Err(MalformedIndex(name))
    case Some(index) =>
      match load(name)
      case Unreadable(reason) => Err(ReadFailed(name, reason))
      case Samples(values) => Ok(Reading(Angle(index), reduce(Corrected(values, table(index)))))
  }

  /** The loop body as a function of the file name alone. */
  function Step<S>(load: string -> Column, table: int -> Rule, reduce: seq<real> -> S)
    : string -> Result<Reading<S>, Fault>
  {
    name => Entry(name, load, table, reduce)
  }

  /**
   * The dictionary after the loop has run `step` over `files` in order:
   * the first fault aborts the run, otherwise every file stores its
   * statistic under its angle, a later file overwriting an earlier one.
   */
  function Collected<S>(files: seq<string>, step: string -> Result<Reading<S>, Fault>)
    : (r: Result<map<real, S>, Fault>)
    ensures r.Ok? ==> |r.value| <= |files|
  {
    if files == [] then Ok(map[])
    else
      match Collected(files[..|files| - 1], step)
      case Err(e) => Err(e)
      case Ok(data) =>
        match step(files[|files| - 1])
        case Err(e) => Err(e)
        case Ok(reading) =>
          var next := data[reading.angle := reading.stat];
          assert next.Keys == data.Keys + {reading.angle};
          Ok(next)
  }

  /** Once a prefix of the files has aborted, the whole run ends with that fault. */
  lemma {:induction false} FaultIsFinal<S>(files: seq<string>, k: nat, step: string -> Result<Reading<S>, Fault>)
    requires k <= |files|
    requires Collected(files[..k], step).Err?
    ensures Collected(files, step) == Collected(files[..k], step)
    decreases |files| - k
  {
    if k < |files| {
      var init := files[..|files| - 1];
      assert init[..k] == files[..k];
      FaultIsFinal(init, k, step);
    } else {
      assert files[..k] == files;
    }
  }

  /**
   * Lines 15-36: the loop, one file at a time; the column is copied into
   * an array and corrected in place before it is reduced.
   */
  method Aggregate<S>(files: seq<string>, load: string -> Column, table: int -> Rule, reduce: seq<real> -> S)
    returns (r: Result<map<real, S>, Fault>)
    ensures r == Collected(files, Step(load, table, reduce))
  {
    var data: map<real, S> := map[];
    for i := 0 to |files|
      invariant Collected(files[..i], Step(load, table, reduce)) == Ok(data)
    {
      assert files[..i + 1][..i] == files[..i];
      var name := files[i];
      var parsed := IndexOf(name);
      if parsed.None? {
        FaultIsFinal(files, i + 1, Step(load, table, reduce));
        return Err(MalformedIndex(name));
      }
      var index := parsed.value;
      var angle := Angle(index);
      var column := load(name);
      if column.Unreadable? {
        FaultIsFinal(files, i + 1, Step(load, table, reduce));
        return Err(ReadFailed(name, column.reason));
      }
      var samples := column.values;
      var values := new real[|samples|](k requires 0 <= k < |samples| => samples[k]);
      assert values[..] == samples;
      ApplyRule(values, table(index));
      data := data[angle := reduce(values[..])];
    }
    assert files[..|files|] == files;
    return Ok(data);
  }

  /** The run succeeds exactly when every file's step succeeds. */
  lemma {:induction false} CollectedSucceeds<S>(files: seq<string>, step: string -> Result<Reading<S>, Fault>)
    ensures Collected(files, step).Ok? <==> forall k :: 0 <= k < |files| ==> step(files[k]).Ok?
  {
    if files != [] {
      var init := files[..|files| - 1];
      CollectedSucceeds(init, step);
      assert forall k :: 0 <= k < |init| ==> init[k] == files[k];
    }
  }

  /** The first file whose step fails decides the fault the run aborts with. */
  lemma FirstFaultAborts<S>(files: seq<string>, k: nat, step: string -> Result<Reading<S>, Fault>)
    requires k < |files|
    requires forall j :: 0 <= j < k ==> step(files[j]).Ok?
    requires step(files[k]).Err?
    ensures Collected(files, step) == Err(step(files[k]).error)
  {
    var prefix := files[..k];
    assert files[..k + 1][..k] == prefix;
    CollectedSucceeds(prefix, step);
    assert files[..k + 1][k] == files[k];
    FaultIsFinal(files, k + 1, step);
  }

  /** A file whose stem `int` rejects aborts the run when every file before it could be processed. */
  lemma MalformedNameAborts<S>(files: seq<string>, k: nat, load: string -> Column,
                               table: int -> Rule, reduce: seq<real> -> S)
    requires k < |files|
    requires forall j :: 0 <= j < k ==> IndexOf(files[j]).Some? && load(files[j]).Samples?
    requires IndexOf(files[k]).None?
    ensures Collected(files, Step(load, table, reduce)) == Err(MalformedIndex(files[k]))
  {
    FirstFaultAborts(files, k, Step(load, table, reduce));
  }

  /** The angles the steps of `files` store. */
  ghost function StoredAngles<S>(files: seq<string>, step: string -> Result<Reading<S>, Fault>): set<real> {
    set k | 0 <= k < |files| && step(files[k]).Ok? :: step(files[k]).value.angle
  }

  lemma StoredAnglesAppend<S>(files: seq<string>, name: string, step: string -> Result<Reading<S>, Fault>)
    requires step(name).Ok?
    ensures StoredAngles(files + [name], step) == StoredAngles(files, step) + {step(name).value.angle}
  {
    var all := files + [name];
    assert forall k :: 0 <= k < |files| ==> all[k] == files[k];
    assert all[|files|] == name;
  }

  /** The dictionary's keys are the angles the files' steps produce. */
  lemma {:induction false} CollectedKeys<S>(files: seq<string>, step: string -> Result<Reading<S>, Fault>)
    requires Collected(files, step).Ok?
    ensures Collected(files, step).value.Keys == StoredAngles(files, step)
  {
    if files != [] {
      var init, last := files[..|files| - 1], files[|files| - 1];
      assert files == init + [last];
      CollectedKeys(init, step);
      StoredAnglesAppend(init, last, step);
    }
  }

  /** The indices of the files whose stem `int` accepts. */
  ghost function Indices(files: seq<string>): set<int> {
    set k | 0 <= k < |files| && IndexOf(files[k]).Some? :: IndexOf(files[k]).value
  }

  ghost function AnglesOf(indices: set<int>): set<real> {
    set i | i in indices :: Angle(i)
  }

  /** After a successful run, the dictionary holds one key per distinct file index: its angle. */
  lemma KeysAreIndexAngles<S>(files: seq<string>, load: string -> Column, table: int -> Rule, reduce: seq<real> -> S)
    requires Collected(files, Step(load, table, reduce)).Ok?
    ensures Collected(files, Step(load, table, reduce)).value.Keys == AnglesOf(Indices(files))
  {
    var step := Step(load, table, reduce);
    CollectedKeys(files, step);
    CollectedSucceeds(files, step);
    forall a | a in AnglesOf(Indices(files))
      ensures a in StoredAngles(files, step)
    {
      var i :| i in Indices(files) && a == Angle(i);
      var k :| 0 <= k < |files| && IndexOf(files[k]).Some? && IndexOf(files[k]).value == i;
      assert step(files[k]).Ok?;
    }
    forall a | a in StoredAngles(files, step)
      ensures a in AnglesOf(Indices(files))
    {
      var k :| 0 <= k < |files| && step(files[k]).Ok? && a == step(files[k]).value.angle;
      assert IndexOf(files[k]).value in Indices(files);
    }
  }

  /** Distinct indices give distinct angles, so there are as many angles as indices. */
  lemma {:induction false} AnglesOfSize(indices: set<int>)
    ensures |AnglesOf(indices)| == |indices|
    decreases |indices|
  {
    if indices != {} {
      var i := Pick(indices);
      var rest := indices - {i};
      AnglesOfSize(rest);
      forall j | j in rest
        ensures Angle(j) != Angle(i)
      {
        AngleOrder(i, j);
      }
      assert AnglesOf(indices) == AnglesOf(rest) + {Angle(i)};
    }
  }

  lemma HasMember<T>(s: set<T>)
    requires s != {}
    ensures exists x :: x in s
  {
  }

  /** Some member of a non-empty set. */
  ghost function Pick<T>(s: set<T>): (x: T)
    requires s != {}
    ensures x in s
  {
    HasMember(s);
    var x :| x in s; x
  }

  /**
   * The statistic a file's step stores survives to the end of the run
   * when no later file's step stores under the same angle.
   */
  lemma {:induction false} LastWriteWins<S>(files: seq<string>, k: nat, step: string -> Result<Reading<S>, Fault>)
    requires Collected(files, step).Ok?
    requires k < |files|
    requires forall j :: k < j < |files| && step(files[j]).Ok? && step(files[k]).Ok? ==>
      step(files[j]).value.angle != step(files[k]).value.angle
    ensures step(files[k]).Ok?
    ensures step(files[k]).value.angle in Collected(files, step).value
    ensures Collected(files, step).value[step(files[k]).value.angle] == step(files[k]).value.stat
  {
    CollectedSucceeds(files, step);
    var init := files[..|files| - 1];
    if k < |files| - 1 {
      assert forall j :: k < j < |init| ==> init[j] == files[j];
      LastWriteWins(init, k, step);
    }
  }

  /**
   * A later file with the same index overwrites an earlier one: the
   * statistic stored under a file's angle is that file's own when no later
   * file carries its index.
   */
  lemma LastFileWins<S>(files: seq<string>, k: nat, load: string -> Column,
                        table: int -> Rule, reduce: seq<real> -> S)
    requires Collected(files, Step(load, table, reduce)).Ok?
    requires k < |files|
    requires forall j :: k < j < |files| ==> IndexOf(files[j]) != IndexOf(files[k])
    ensures Entry(files[k], load, table, reduce).Ok?
    ensures var reading := Entry(files[k], load, table, reduce).value;
      && reading.angle in Collected(files, Step(load, table, reduce)).value
      && Collected(files, Step(load, table, reduce)).value[reading.angle] == reading.stat
  {
    var step := Step(load, table, reduce);
    CollectedSucceeds(files, step);
    forall j | k < j < |files| && step(files[j]).Ok? && step(files[k]).Ok?
      ensures step(files[j]).value.angle != step(files[k]).value.angle
    {
      AngleOrder(IndexOf(files[j]).value, IndexOf(files[k]).value);
    }
    LastWriteWins(files, k, step);
  }

  // ---------------------------------------------------------------------
  // Reading the dictionary back in order (lines 38-41)
  // ---------------------------------------------------------------------

  lemma {:induction false} LeastExists(keys: set<real>)
    requires keys != {}
    ensures exists m :: m in keys && forall k :: k in keys ==> m <= k
  {
    var x := Pick(keys);
    if keys != {x} {
      var rest := keys - {x};
      LeastExists(rest);
      var m :| m in rest && forall k :: k in rest ==> m <= k;
      var least := if x < m then x else m;
      forall k | k in keys
        ensures least <= k
      {
        if k != x {
          assert k in rest;
        }
      }
    } else {
      assert forall k :: k in keys ==> x <= k;
    }
  }

  /** The smallest key. */
  function Least(keys: set<real>): (m: real)
    requires keys != {}
    ensures m in keys && forall k :: k in keys ==> m <= k
  {
    LeastExists(keys);
    var m :| m in keys && forall k :: k in keys ==> m <= k;
    m
  }

  /** `sorted(data.keys())`: every key once, in strictly ascending order. */
  function SortedAngles(keys: set<real>): (r: seq<real>)
    ensures |r| == |keys|
    ensures forall a :: a in r <==> a in keys
    ensures forall i, j :: 0 <= i < j < |r| ==> r[i] < r[j]
    decreases |keys|
  {
    if keys == {} then []
    else
      var m := Least(keys);
      [m] + SortedAngles(keys - {m})
  }
}

=== FILE: csv_grid.dfy ===
/**
 * rotating_RX/plot_csv_data.py: every CSV file of the directory gets one
 * panel of a grid figure. The files are ordered by the number in their
 * name, the grid is as square as possible, a file that cannot be read
 * gets an error note in its own panel, and the panels left over are
 * switched off.
 */
module CsvGrid {
  import opened Wrappers
  import opened Text

  // ---------------------------------------------------------------------
  // File order (line 8)
  // ---------------------------------------------------------------------

  /** The sort key of a file: `int(stem)` or `float('inf')`. */
  datatype SortKey = Number(n: int) | Infinity

  /** `a <= b` as Python compares two keys; every number is below infinity. */
  predicate KeyLe(a: SortKey, b: SortKey) {
    b.Infinity? || (a.Number? && a.n <= b.n)
  }

  /**
   * The key of line 8: a stem that passes `isdigit` sorts by its integer
   * value, every other stem sorts as infinity.
   */
  function KeyOf(name: string): (k: SortKey)
    ensures k.Number? <==> IsDigitString(Stem(name))
    ensures k.Number? ==> k.n == DecimalValue(Stem(name))
  {
    var stem := Stem(name);
    if IsDigitString(stem) then
      ParseIntOfDigits(stem);
      Number(ParseInt(stem).value)
    else Infinity
  }

  predicate SortedBy<T>(s: seq<T>, key: T -> SortKey) {
    forall i, j :: 0 <= i < j < |s| ==> KeyLe(key(s[i]), key(s[j]))
  }

  /** Every element of `s` has a key at most `b`. */
  predicate AllAtMost<T>(s: seq<T>, key: T -> SortKey, b: SortKey) {
    forall k :: 0 <= k < |s| ==> KeyLe(key(s[k]), b)
  }

  /** Puts `x` after every element of `s` whose key is not greater than its own. */
  function Insert<T>(x: T, s: seq<T>, key: T -> SortKey): (r: seq<T>)
    requires SortedBy(s, key)
    ensures SortedBy(r, key)
    ensures multiset(r) == multiset(s) + multiset{x}
    ensures forall b :: AllAtMost(s, key, b) && KeyLe(key(x), b) ==> AllAtMost(r, key, b)
  {
    if s == [] || KeyLe(key(s[|s| - 1]), key(x)) then s + [x]
    else
      var init, last := s[..|s| - 1], s[|s| - 1];
      assert s == init + [last];
      assert AllAtMost(init, key, key(last));
      Insert(x, init, key) + [last]
  }

  /**
   * `sorted(s, key=key)`: a stable sort, so elements whose keys are
   * equal stay in the order they came in.
   */
  function StableSort<T>(s: seq<T>, key: T -> SortKey): (r: seq<T>)
    ensures SortedBy(r, key)
    ensures multiset(r) == multiset(s)
    ensures |r| == |s|
  {
    if s == [] then []
    else
      var init, last := s[..|s| - 1], s[|s| - 1];
      assert s == init + [last];
      var r := Insert(last, StableSort(init, key), key);
      assert |r| == |multiset(r)|;
      r
  }

  /** The elements of `s` whose key is `k`, in the order of `s`. */
  function WithKey<T>(s: seq<T>, key: T -> SortKey, k: SortKey): seq<T> {
    if s == [] then []
    else WithKey(s[..|s| - 1], key, k) + (if key(s[|s| - 1]) == k then [s[|s| - 1]] else [])
  }

  lemma WithKeyAppend<T>(s: seq<T>, x: T, key: T -> SortKey, k: SortKey)
    ensures WithKey(s + [x], key, k) == WithKey(s, key, k) + (if key(x) == k then [x] else [])
  {
    assert (s + [x])[..|s|] == s;
  }

  lemma {:induction false} InsertWithKey<T>(x: T, s: seq<T>, key: T -> SortKey, k: SortKey)
    requires SortedBy(s, key)
    ensures WithKey(Insert(x, s, key), key, k) == WithKey(s, key, k) + (if key(x) == k then [x] else [])
  {
    if s == [] || KeyLe(key(s[|s| - 1]), key(x)) {
      WithKeyAppend(s, x, key, k);
    } else {
      var init, last := s[..|s| - 1], s[|s| - 1];
      assert s == init + [last];
      assert key(last) != key(x);
      InsertWithKey(x, init, key, k);
      WithKeyAppend(Insert(x, init, key), last, key, k);
      WithKeyAppend(init, last, key, k);
    }
  }

  /** Stability: for every key, the elements with that key keep their input order. */
  lemma {:induction false} StableSortKeepsOrder<T>(s: seq<T>, key: T -> SortKey, k: SortKey)
    ensures WithKey(StableSort(s, key), key, k) == WithKey(s, key, k)
  {
    if s != [] {
      var init, last := s[..|s| - 1], s[|s| - 1];
      assert s == init + [last];
      StableSortKeepsOrder(init, key, k);
      InsertWithKey(last, StableSort(init, key), key, k);
      WithKeyAppend(init, last, key, k);
    }
  }

  /** Line 8: the files of the directory in the order the script plots them. */
  function SortFiles(found: seq<string>): (files: seq<string>)
    ensures multiset(files) == multiset(found) && |files| == |found|
  {
    StableSort(found, KeyOf)
  }

  /**
   * After sorting, files with an all-digit stem come before every other
   * file and are in the numeric order of their stems.
   */
  lemma SortedFileOrder(found: seq<string>)
    ensures var r := SortFiles(found);
      forall i, j :: 0 <= i < j < |r| && IsDigitString(Stem(r[j])) ==>
        IsDigitString(Stem(r[i])) && DecimalValue(Stem(r[i])) <= DecimalValue(Stem(r[j]))
  {
    var r := SortFiles(found);
    assert SortedBy(r, KeyOf);
    forall i, j | 0 <= i < j < |r| && IsDigitString(Stem(r[j]))
      ensures IsDigitString(Stem(r[i])) && DecimalValue(Stem(r[i])) <= DecimalValue(Stem(r[j]))
    {
      assert KeyLe(KeyOf(r[i]), KeyOf(r[j]));
    }
  }

  /** The files whose stem is not all digits keep their input order among themselves. */
  lemma OtherFilesKeepInputOrder(found: seq<string>)
    ensures WithKey(SortFiles(found), KeyOf, Infinity) == WithKey(found, KeyOf, Infinity)
  {
    StableSortKeepsOrder(found, KeyOf, Infinity);
  }

  // ---------------------------------------------------------------------
  // Grid dimensions (lines 11-18)
  // ---------------------------------------------------------------------

  function LeastRootFrom(n: nat, c: nat): (r: nat)
    requires c == 0 || (c - 1) * (c - 1) < n
    ensures r * r >= n
    ensures r == 0 || (r - 1) * (r - 1) < n
    decreases n - c
  {
    if c * c >= n then c
    else
      assert c < n by {
        if c > 0 {
          assert c * c >= c;
        }
      }
      LeastRootFrom(n, c + 1)
  }

  /** `ceil(sqrt(n))` over the integers: the least `c` with `c * c >= n`. */
  function CeilSqrt(n: nat): (c: nat)
    ensures n > 0 ==> c > 0
    ensures c * c >= n
    ensures c == 0 || (c - 1) * (c - 1) < n
  {
    LeastRootFrom(n, 0)
  }

  lemma SquareMonotone(a: nat, b: nat)
    requires a <= b
    ensures a * a <= b * b
  {
    assert a * a <= a * b;
    assert a * b <= b * b;
  }

  /** No column count below `CeilSqrt(n)` has room for `n` files in a square. */
  lemma CeilSqrtIsLeast(n: nat, d: nat)
    requires d * d >= n
    ensures CeilSqrt(n) <= d
  {
    var c := CeilSqrt(n);
    if c > d {
      SquareMonotone(d, c - 1);
    }
  }

  datatype Grid = Grid(rows: nat, cols: nat)

  /**
   * Lines 11-18: with no file the script exits before any grid exists;
   * otherwise `n_cols = ceil(sqrt(n))` and `n_rows = ceil(n / n_cols)`.
   */
  function GridFor(n: nat): (g: Option<Grid>)
    ensures g.None? <==> n == 0
    ensures g.Some? ==> 0 < g.value.cols && g.value.cols * g.value.cols >= n
    ensures g.Some? ==> (g.value.cols - 1) * (g.value.cols - 1) < n
  {
    if n == 0 then None
    else
      var cols := CeilSqrt(n);
      Some(Grid((n + cols - 1) / cols, cols))
  }

  /**
   * Every file index is a panel of the grid, and the last row is not
   * empty: `(rows - 1) * cols < n <= rows * cols`.
   */
  lemma GridHoldsEveryFile(n: nat)
    requires n > 0
    ensures var g := GridFor(n).value;
      (g.rows - 1) * g.cols < n <= g.rows * g.cols
  {
    var g := GridFor(n).value;
    var c := g.cols;
    var q, r := (n + c - 1) / c, (n + c - 1) % c;
    assert q * c + r == n + c - 1;
    assert g.rows == q;
    assert (q - 1) * c == q * c - c;
  }

  /** `a * c < b * c` with a positive `c` gives `a < b`. */
  lemma CancelFactor(a: int, b: int, c: nat)
    requires c > 0 && a * c < b * c
    ensures a < b
  {
  }

  /** The grid is as square as possible: `cols - 1 <= rows <= cols`. */
  lemma GridNearlySquare(n: nat)
    requires n > 0
    ensures var g := GridFor(n).value;
      g.cols - 1 <= g.rows <= g.cols
  {
    var g := GridFor(n).value;
    var c: int := g.cols;
    var q, r := (n + c - 1) / c, (n + c - 1) % c;
    assert q * c + r == n + c - 1;
    assert g.rows == q;
    assert (c + 1) * c == c * c + c;
    CancelFactor(q, c + 1, c);
    assert (c - 2) * c == c * c - 2 * c;
    assert (c - 1) * (c - 1) == c * c - 2 * c + 1;
    CancelFactor(c - 2, q, c);
  }

  // ---------------------------------------------------------------------
  // Panels (lines 21-69)
  // ---------------------------------------------------------------------

  /** What the plotting calls used of a file: whether it had timestamps and a `Value` column. */
  datatype Series = ValueColumn | NumericColumns
  datatype Loaded = Read(timed: bool, series: Series) | Raised(message: string)

  /** The content of one panel of the figure. */
  datatype Panel =
    | Blank
    | Chart(title: string, xLabel: string, series: Series)
    | ErrorNote(title: string, text: string)
    | Hidden

  /**
   * Lines 32-65: a file that was read becomes a chart titled with its
   * name; a file whose reading raised becomes an error note naming it.
   */
  function PanelFor(name: string, loaded: Loaded): (p: Panel)
    ensures p.Chart? <==> loaded.Read?
    ensures p.ErrorNote? <==> loaded.Raised?
  {
    match loaded
    case Read(timed, series) =>
      Chart(name, if timed then "Time (seconds)" else "Sample Index", series)
    case Raised(message) =>
      ErrorNote(name + " (Error)", "Error reading " + name + "\n" + message)
  }

  /**
   * The figure the script saves: panel `i` shows file `i`, the panels
   * past the last file are switched off.
   */
  function Panels(files: seq<string>, load: string -> Loaded, count: nat): (p: seq<Panel>)
    requires |files| <= count
    ensures |p| == count
    ensures forall i :: 0 <= i < count ==> (p[i].Hidden? <==> |files| <= i)
    ensures forall i :: 0 <= i < count ==> (p[i].ErrorNote? <==> i < |files| && load(files[i]).Raised?)
    ensures forall i :: 0 <= i < |files| ==> p[i] == PanelFor(files[i], load(files[i]))
  {
    seq(count, i requires 0 <= i < count => if i < |files| then PanelFor(files[i], load(files[i])) else Hidden)
  }

  /**
   * A read failure changes only the panel of the file that failed: with
   * two readers that differ only on `f`, every other panel is the same.
   */
  lemma ReadFailureStaysInItsPanel(files: seq<string>, load: string -> Loaded, load': string -> Loaded,
                                    count: nat, f: string)
    requires |files| <= count
    requires forall g :: g != f ==> load(g) == load'(g)
    ensures forall i :: 0 <= i < count && Panels(files, load, count)[i] != Panels(files, load', count)[i] ==>
      i < |files| && files[i] == f
  {
  }

  /** The figure: a fixed grid and the array of its flattened panels. */
  class Figure {
    const grid: Grid
    const axes: array<Panel>

    /** `plt.subplots(rows, cols)` and the flattening of lines 25-28. */
    constructor (grid: Grid)
      ensures this.grid == grid && fresh(axes)
      ensures axes.Length == grid.rows * grid.cols
      ensures forall i :: 0 <= i < axes.Length ==> axes[i] == Blank
    {
      this.grid := grid;
      axes := new Panel[grid.rows * grid.cols](_ => Blank);
    }

    /** Lines 32-65: draws file `name` into panel `idx`; no other panel changes. */
    method Draw(idx: nat, name: string, loaded: Loaded)
      requires idx < axes.Length
      modifies axes
      ensures axes[..] == old(axes[..])[idx := PanelFor(name, loaded)]
    {
      axes[idx] := PanelFor(name, loaded);
    }

    /** Lines 68-69: switches off every panel from `from` on; the panels before it keep their content. */
    method HideUnused(from: nat)
      requires from <= axes.Length
      modifies axes
      ensures axes[..from] == old(axes[..from])
      ensures forall i :: from <= i < axes.Length ==> axes[i] == Hidden
    {
      var idx := from;
      while idx < axes.Length
        invariant from <= idx <= axes.Length
        invariant axes[..from] == old(axes[..from])
        invariant forall i :: from <= i < idx ==> axes[i] == Hidden
      {
        axes[idx] := Hidden;
        idx := idx + 1;
      }
    }
  }

  /**
   * Lines 31-65: panel `idx` gets file `idx` for every file; a failing
   * file leaves its error note and the loop goes on with the next one.
   */
  method DrawAll(figure: Figure, files: seq<string>, load: string -> Loaded)
    requires |files| <= figure.axes.Length
    requires forall i :: 0 <= i < figure.axes.Length ==> figure.axes[i] == Blank
    modifies figure.axes
    ensures forall i :: 0 <= i < |files| ==> figure.axes[i] == PanelFor(files[i], load(files[i]))
    ensures forall i :: |files| <= i < figure.axes.Length ==> figure.axes[i] == Blank
  {
    for idx := 0 to |files|
      invariant forall i :: 0 <= i < idx ==> figure.axes[i] == PanelFor(files[i], load(files[i]))
      invariant forall i :: idx <= i < figure.axes.Length ==> figure.axes[i] == Blank
    {
      figure.Draw(idx, files[idx], load(files[idx]));
    }
  }

  /**
   * The whole script: no figure when the directory has no CSV file,
   * otherwise the sorted files drawn one per panel of `GridFor(n)` with
   * the remaining panels switched off.
   */
  method PlotCsvData(found: seq<string>, load: string -> Loaded) returns (fig: Option<Figure>)
    ensures fig.None? <==> found == []
    ensures fig.Some? ==> fresh(fig.value.axes) && GridFor(|found|) == Some(fig.value.grid)
    ensures fig.Some? ==> fig.value.axes.Length == fig.value.grid.rows * fig.value.grid.cols
    ensures fig.Some? ==> |found| <= fig.value.axes.Length
    ensures fig.Some? ==> fig.value.axes[..] == Panels(SortFiles(found), load, fig.value.axes.Length)
  {
    var files := SortFiles(found);
    var n := |files|;
    if n == 0 {
      return None;
    }
    var grid := GridFor(n).value;
    GridHoldsEveryFile(n);
    var figure := new Figure(grid);
    DrawAll(figure, files, load);
    figure.HideUnused(n);
    ghost var expected := Panels(files, load, figure.axes.Length);
    assert forall i :: 0 <= i < n ==> figure.axes[i] == figure.axes[..n][i] == expected[i];
    assert figure.axes[..] == expected;
    fig := Some(figure);
  }
}

=== FILE: mean_with_error.dfy ===
/**
 * rotating_RX/plot_mean_with_error.py up to the plot: every file's
 * corrected samples are summarised by their mean and sample variance
 * under the file's angle, and the summaries are read back as three
 * aligned sequences in ascending angle order, the error-bar series.
 */
module MeanWithError {
  import opened Wrappers
  import opened Stats
  import opened Angular

  /**
   * Lines 27-30: files 3, 6 and 11 have their negative samples negated,
   * file 12 its positive samples; every other file is left alone.
   */
  function CorrectionRule(index: int): (rule: Rule)
    ensures rule == NegateNegatives <==> index == 3 || index == 6 || index == 11
    ensures rule == NegatePositives <==> index == 12
    ensures rule == Keep <==> index != 3 && index != 6 && index != 11 && index != 12
  {
    if index == 3 || index == 6 || index == 11 then NegateNegatives
    else if index == 12 then NegatePositives
    else Keep
  }

  /** The entry `{'mean': ..., 'std': ...}` of line 36, with the variance in place of its square root. */
  datatype Summary = Summary(mean: Stat, variance: Stat)

  /** Lines 33-34: the mean and the ddof = 1 spread of a file's corrected column. */
  function Summarize(values: seq<real>): (s: Summary)
    ensures s.mean.NaN? <==> values == []
    ensures s.variance.NaN? <==> |values| < 2
    ensures s.variance.Num? ==> s.variance.value >= 0.0
  {
    Summary(Mean(values), SampleVariance(values))
  }

  /** Lines 27-33: a corrected file's mean has the sign its rule forces. */
  lemma CorrectedMeanSign(index: int, values: seq<real>)
    requires values != []
    ensures var m := Summarize(Corrected(values, CorrectionRule(index))).mean;
      && m.Num?
      && (index == 3 || index == 6 || index == 11 ==> m.value >= 0.0)
      && (index == 12 ==> m.value <= 0.0)
  {
    var fixed := Corrected(values, CorrectionRule(index));
    if index == 3 || index == 6 || index == 11 {
      MeanNonNegative(fixed);
    } else if index == 12 {
      MeanNonPositive(fixed);
    }
  }

  /** The two worked corrections: `[-2, 3, -1]` becomes `[2, 3, 1]` with mean 2, `[2, -3, 1]` becomes `[-2, -3, -1]` with mean -2. */
  lemma CorrectionExamples()
    ensures Corrected([-2.0, 3.0, -1.0], CorrectionRule(3)) == [2.0, 3.0, 1.0]
    ensures Mean([2.0, 3.0, 1.0]) == Num(2.0)
    ensures Corrected([2.0, -3.0, 1.0], CorrectionRule(12)) == [-2.0, -3.0, -1.0]
    ensures Mean([-2.0, -3.0, -1.0]) == Num(-2.0)
  {
    assert [2.0, 3.0, 1.0][..2] == [2.0, 3.0];
    assert [2.0, 3.0][..1] == [2.0];
    assert Sum([2.0, 3.0, 1.0]) == 6.0;
    assert [-2.0, -3.0, -1.0][..2] == [-2.0, -3.0];
    assert [-2.0, -3.0][..1] == [-2.0];
    assert Sum([-2.0, -3.0, -1.0]) == -6.0;
  }

  /** The series `ax.errorbar` draws: angles, means and spreads, position by position. */
  datatype ErrorBars = ErrorBars(angles: seq<real>, means: seq<Stat>, variances: seq<Stat>)

  /**
   * Lines 39-41: the dictionary's angles in ascending order, each once,
   * with the mean and the spread stored under each.
   */
  function Arrange(data: map<real, Summary>): (e: ErrorBars)
    ensures |e.angles| == |data| && |e.means| == |data| && |e.variances| == |data|
    ensures forall i, j :: 0 <= i < j < |e.angles| ==> e.angles[i] < e.angles[j]
    ensures forall a :: a in e.angles <==> a in data
    ensures forall i :: 0 <= i < |e.angles| ==>
      && e.angles[i] in data
      && e.means[i] == data[e.angles[i]].mean
      && e.variances[i] == data[e.angles[i]].variance
  {
    var angles := SortedAngles(data.Keys);
    ErrorBars(angles, MeansAt(angles, data), VariancesAt(angles, data))
  }

  /** The `means` sequence of `Arrange`, split out to keep that proof small. */
  function MeansAt(angles: seq<real>, data: map<real, Summary>): (means: seq<Stat>)
    requires forall i :: 0 <= i < |angles| ==> angles[i] in data
    ensures |means| == |angles|
    ensures forall i :: 0 <= i < |angles| ==> means[i] == data[angles[i]].mean
  {
    seq(|angles|, i requires 0 <= i < |angles| => data[angles[i]].mean)
  }

  /** The spreads sequence of `Arrange`, split out to keep that proof small. */
  function VariancesAt(angles: seq<real>, data: map<real, Summary>): (variances: seq<Stat>)
    requires forall i :: 0 <= i < |angles| ==> angles[i] in data
    ensures |variances| == |angles|
    ensures forall i :: 0 <= i < |angles| ==> variances[i] == data[angles[i]].variance
  {
    seq(|angles|, i requires 0 <= i < |angles| => data[angles[i]].variance)
  }

  /** The dictionary lines 12-36 build. */
  function Summaries(files: seq<string>, load: string -> Column): (r: Result<map<real, Summary>, Fault>)
    ensures r.Ok? <==> forall k :: 0 <= k < |files| ==> IndexOf(files[k]).Some? && load(files[k]).Samples?
    ensures r.Ok? ==> |r.value| <= |files|
  {
    CollectedSucceeds(files, Step(load, CorrectionRule, Summarize));
    Collected(files, Step(load, CorrectionRule, Summarize))
  }

  /**
   * Lines 8-41: the whole computation before the plot. A fault aborts the
   * run with that fault; otherwise the result is the arranged dictionary.
   */
  method Run(files: seq<string>, load: string -> Column) returns (r: Result<ErrorBars, Fault>)
    ensures Summaries(files, load).Err? ==> r == Err(Summaries(files, load).error)
    ensures Summaries(files, load).Ok? ==> r == Ok(Arrange(Summaries(files, load).value))
  {
    var data := Aggregate(files, load, CorrectionRule, Summarize);
    match data
    case Err(fault) =>
      r := Err(fault);
    case Ok(summaries) =>
      r := Ok(Arrange(summaries));
  }

  /** There are as many error bars as distinct file indices. */
  lemma OneBarPerIndex(files: seq<string>, load: string -> Column)
    requires Summaries(files, load).Ok?
    ensures |Arrange(Summaries(files, load).value).angles| == |Indices(files)|
  {
    KeysAreIndexAngles(files, load, CorrectionRule, Summarize);
    AnglesOfSize(Indices(files));
  }

  /**
   * The bar at a file's angle shows that file's corrected mean and spread,
   * unless a later file carries the same index.
   */
  lemma BarOfFile(files: seq<string>, load: string -> Column, k: nat)
    requires Summaries(files, load).Ok?
    requires k < |files|
    requires forall j :: k < j < |files| ==> IndexOf(files[j]) != IndexOf(files[k])
    ensures IndexOf(files[k]).Some? && load(files[k]).Samples?
    ensures var e := Arrange(Summaries(files, load).value);
      var index := IndexOf(files[k]).value;
      var summary := Summarize(Corrected(load(files[k]).values, CorrectionRule(index)));
      exists i :: 0 <= i < |e.angles| && e.angles[i] == Angle(index) &&
        e.means[i] == summary.mean && e.variances[i] == summary.variance
  {
    LastFileWins(files, k, load, CorrectionRule, Summarize);
    var e := Arrange(Summaries(files, load).value);
    var angle := Angle(IndexOf(files[k]).value);
    assert angle in e.angles;
    var i :| 0 <= i < |e.angles| && e.angles[i] == angle;
  }
}

=== FILE: radiation_pattern.dfy ===
/**
 * rotating_TX/plot_radiation_pattern.py up to the plot: every file's
 * corrected samples are reduced to their mean under the file's angle; the
 * means are read back in ascending angle order and the polygon is closed
 * by repeating its first point.
 */
module RadiationPattern {
  import opened Wrappers
  import opened Stats
  import opened Angular

  /**
   * Lines 26-31: file 6 has its positive samples negated, files 13 and
   * 14 their negative samples; every other file is left alone.
   */
  function CorrectionRule(index: int): (rule: Rule)
    ensures rule == NegatePositives <==> index == 6
    ensures rule == NegateNegatives <==> index == 13 || index == 14
    ensures rule == Keep <==> index != 6 && index != 13 && index != 14
  {
    if index == 6 then NegatePositives
    else if index == 13 || index == 14 then NegateNegatives
    else Keep
  }

  /** Lines 26-33: a corrected file's mean has the sign its rule forces. */
  lemma CorrectedMeanSign(index: int, values: seq<real>)
    requires values != []
    ensures var m := Mean(Corrected(values, CorrectionRule(index)));
      && m.Num?
      && (index == 6 ==> m.value <= 0.0)
      && (index == 13 || index == 14 ==> m.value >= 0.0)
  {
    var fixed := Corrected(values, CorrectionRule(index));
    if index == 6 {
      MeanNonPositive(fixed);
    } else if index == 13 || index == 14 {
      MeanNonNegative(fixed);
    }
  }

  /** The points of the pattern: angles in degrees and the mean at each. */
  datatype Pattern = Pattern(angles: seq<real>, values: seq<Stat>)

  /** Lines 38-39: the dictionary's angles in ascending order, each once, with the mean stored under each. */
  function Arrange(data: map<real, Stat>): (p: Pattern)
    ensures |p.angles| == |data| && |p.values| == |data|
    ensures forall i, j :: 0 <= i < j < |p.angles| ==> p.angles[i] < p.angles[j]
    ensures forall a :: a in p.angles <==> a in data
    ensures forall i :: 0 <= i < |p.angles| ==> p.angles[i] in data && p.values[i] == data[p.angles[i]]
  {
    var angles := SortedAngles(data.Keys);
    Pattern(angles, seq(|angles|, i requires 0 <= i < |angles| => data[angles[i]]))
  }

  /**
   * Lines 45-46, `np.append(x, x[0])`: the sequence followed by its first
   * element; on an empty sequence `x[0]` raises.
   */
  function Close<T>(s: seq<T>): (r: Result<seq<T>, Fault>)
    ensures r.Err? <==> s == []
    ensures r.Err? ==> r.error == NoAngles
    ensures r.Ok? ==> |r.value| == |s| + 1 && r.value[..|s|] == s && r.value[|s|] == s[0]
  {
    if s == [] then Err(NoAngles) else Ok(s + [s[0]])
  }

  /** Closing both series of a pattern; both fail together. */
  function ClosePattern(p: Pattern): (r: Result<Pattern, Fault>)
    requires |p.angles| == |p.values|
    ensures r.Err? <==> p.angles == []
    ensures r.Err? ==> r.error == NoAngles
    ensures r.Ok? ==> Close(p.angles) == Ok(r.value.angles) && Close(p.values) == Ok(r.value.values)
  {
    match (Close(p.angles), Close(p.values))
    case (Ok(angles), Ok(values)) => Ok(Pattern(angles, values))
    case _ => Err(NoAngles)
  }

  /** The dictionary lines 12-35 build. */
  function Means(files: seq<string>, load: string -> Column): (r: Result<map<real, Stat>, Fault>)
    ensures r.Ok? <==> forall k :: 0 <= k < |files| ==> IndexOf(files[k]).Some? && load(files[k]).Samples?
    ensures r.Ok? ==> |r.value| <= |files|
  {
    CollectedSucceeds(files, Step(load, CorrectionRule, Mean));
    Collected(files, Step(load, CorrectionRule, Mean))
  }

  /**
   * Lines 8-46: the whole computation before the plot. A fault while
   * reading aborts the run with that fault; a run without files fails at
   * closing; otherwise the result is the closed, arranged dictionary.
   */
  method Run(files: seq<string>, load: string -> Column) returns (r: Result<Pattern, Fault>)
    ensures Means(files, load).Err? ==> r == Err(Means(files, load).error)
    ensures Means(files, load).Ok? && Means(files, load).value == map[] ==> r == Err(NoAngles)
    ensures Means(files, load).Ok? && Means(files, load).value != map[] ==>
      r.Ok? && r == ClosePattern(Arrange(Means(files, load).value))
  {
    var data := Aggregate(files, load, CorrectionRule, Mean);
    match data
    case Err(fault) =>
      r := Err(fault);
    case Ok(means) =>
      r := ClosePattern(Arrange(means));
  }

  /**
   * The closed pattern: one point per distinct angle in ascending order,
   * then the first point again, so the outline ends where it starts.
   */
  lemma ClosedPatternShape(data: map<real, Stat>)
    requires data != map[]
    ensures ClosePattern(Arrange(data)).Ok?
    ensures var p := ClosePattern(Arrange(data)).value;
      && |p.angles| == |data| + 1 && |p.values| == |data| + 1
      && (forall i, j :: 0 <= i < j < |data| ==> p.angles[i] < p.angles[j])
      && (forall i :: 0 <= i < |data| ==> p.angles[i] in data && p.values[i] == data[p.angles[i]])
      && p.angles[|data|] == p.angles[0] && p.values[|data|] == p.values[0]
  {
    var q := Arrange(data);
    assert q.angles != [] by {
      var a :| a in data;
      assert a in q.angles;
    }
    var p := ClosePattern(q).value;
    assert p.angles[..|data|] == q.angles && p.values[..|data|] == q.values;
    forall i | 0 <= i < |data|
      ensures p.angles[i] == q.angles[i] && p.values[i] == q.values[i]
    {
      assert p.angles[..|data|][i] == p.angles[i];
      assert p.values[..|data|][i] == p.values[i];
    }
  }

  /** There are as many points before the closing one as distinct file indices. */
  lemma OnePointPerIndex(files: seq<string>, load: string -> Column)
    requires Means(files, load).Ok?
    ensures |Arrange(Means(files, load).value).angles| == |Indices(files)|
  {
    KeysAreIndexAngles(files, load, CorrectionRule, Mean);
    AnglesOfSize(Indices(files));
  }

  /**
   * The point at a file's angle shows that file's corrected mean, unless a
   * later file carries the same index.
   */
  lemma PointOfFile(files: seq<string>, load: string -> Column, k: nat)
    requires Means(files, load).Ok?
    requires k < |files|
    requires forall j :: k < j < |files| ==> IndexOf(files[j]) != IndexOf(files[k])
    ensures IndexOf(files[k]).Some? && load(files[k]).Samples?
    ensures var p := Arrange(Means(files, load).value);
      var index := IndexOf(files[k]).value;
      exists i :: 0 <= i < |p.angles| && p.angles[i] == Angle(index) &&
        p.values[i] == Mean(Corrected(load(files[k]).values, CorrectionRule(index)))
  {
    LastFileWins(files, k, load, CorrectionRule, Mean);
    var p := Arrange(Means(files, load).value);
    var angle := Angle(IndexOf(files[k]).value);
    assert angle in p.angles;
    var i :| 0 <= i < |p.angles| && p.angles[i] == angle;
  }
}

=== FILE: stats.dfy ===
/**
 * The reductions pandas applies to a `Value` column: `Series.mean()` and
 * the sample spread behind `Series.std()` (ddof = 1), over real numbers.
 */
module Stats {

  /** A reduction's result: a number, or NaN when the column has too few values. */
  datatype Stat = NaN | Num(value: real)

  function Sum(s: seq<real>): real {
    if s == [] then 0.0 else Sum(s[..|s| - 1]) + s[|s| - 1]
  }

  /** `Series.mean()`: the arithmetic mean, NaN for an empty column. */
  function Mean(s: seq<real>): (m: Stat)
    ensures m.NaN? <==> s == []
  {
    if s == [] then NaN else Num(Sum(s) / |s| as real)
  }

  /** The sum of the squared distances of the values from `centre`. */
  function SquaredDeviation(s: seq<real>, centre: real): (r: real)
    ensures r >= 0.0
    ensures r == 0.0 <== forall i :: 0 <= i < |s| ==> s[i] == centre
  {
    if s == [] then 0.0
    else
      var d := s[|s| - 1] - centre;
      SquaredDeviation(s[..|s| - 1], centre) + d * d
  }

  /**
   * `Series.var()` with ddof = 1, whose square root `Series.std()` reports:
   * NaN for fewer than two values, never negative otherwise.
   */
  function SampleVariance(s: seq<real>): (v: Stat)
    ensures v.NaN? <==> |s| < 2
    ensures v.Num? ==> v.value >= 0.0
  {
    if |s| < 2 then NaN
    else Num(SquaredDeviation(s, Sum(s) / |s| as real) / (|s| - 1) as real)
  }

  /** The sum lies between `n * lo` and `n * hi` when every value does between `lo` and `hi`. */
  lemma {:induction false} SumBounds(s: seq<real>, lo: real, hi: real)
    requires forall i :: 0 <= i < |s| ==> lo <= s[i] <= hi
    ensures |s| as real * lo <= Sum(s) <= |s| as real * hi
  {
    if s != [] {
      var init := s[..|s| - 1];
      assert forall i :: 0 <= i < |init| ==> init[i] == s[i];
      SumBounds(init, lo, hi);
      assert |s| as real * lo == |init| as real * lo + lo;
      assert |s| as real * hi == |init| as real * hi + hi;
    }
  }

  /** The mean of a non-empty column lies between any bounds of its values. */
  lemma MeanBounds(s: seq<real>, lo: real, hi: real)
    requires s != []
    requires forall i :: 0 <= i < |s| ==> lo <= s[i] <= hi
    ensures lo <= Mean(s).value <= hi
  {
    SumBounds(s, lo, hi);
    var n := |s| as real;
    var m := Sum(s) / n;
    assert Mean(s) == Num(m);
    assert m - lo == (Sum(s) - n * lo) / n;
    assert hi - m == (n * hi - Sum(s)) / n;
  }

  /** A column of non-negative values has a non-negative sum. */
  lemma {:induction false} SumNonNegative(s: seq<real>)
    requires forall i :: 0 <= i < |s| ==> s[i] >= 0.0
    ensures Sum(s) >= 0.0
  {
    if s != [] {
      var init := s[..|s| - 1];
      assert forall i :: 0 <= i < |init| ==> init[i] == s[i];
      SumNonNegative(init);
    }
  }

  /** A column of non-positive values has a non-positive sum. */
  lemma {:induction false} SumNonPositive(s: seq<real>)
    requires forall i :: 0 <= i < |s| ==> s[i] <= 0.0
    ensures Sum(s) <= 0.0
  {
    if s != [] {
      var init := s[..|s| - 1];
      assert forall i :: 0 <= i < |init| ==> init[i] == s[i];
      SumNonPositive(init);
    }
  }

  /** The mean of a non-empty column of non-negative values is non-negative. */
  lemma MeanNonNegative(s: seq<real>)
    requires s != []
    requires forall i :: 0 <= i < |s| ==> s[i] >= 0.0
    ensures Mean(s).value >= 0.0
  {
    SumNonNegative(s);
  }

  /** The mean of a non-empty column of non-positive values is non-positive. */
  lemma MeanNonPositive(s: seq<real>)
    requires s != []
    requires forall i :: 0 <= i < |s| ==> s[i] <= 0.0
    ensures Mean(s).value <= 0.0
  {
    SumNonPositive(s);
  }
}

=== FILE: text.dfy ===
/**
 * The string handling the three scripts rely on: the stem that
 * `os.path.splitext` leaves of a file name, `str.isdigit` and the
 * conversion `int(...)` of a stem to an index.
 *
 * File names are the entries `glob('*.csv')` finds in the working
 * directory, so they never contain a path separator.
 */
module Text {
  import opened Wrappers

  // ---------------------------------------------------------------------
  // os.path.splitext(name)[0]
  // ---------------------------------------------------------------------

  /** The position of the last '.' in `s`, if there is one. */
  function LastDot(s: string): (r: Option<nat>)
    ensures r.Some? ==> r.value < |s| && s[r.value] == '.'
    ensures r.Some? ==> forall j :: r.value < j < |s| ==> s[j] != '.'
    ensures r.None? ==> forall j :: 0 <= j < |s| ==> s[j] != '.'
  {
    if s == [] then None
    else if s[|s| - 1] == '.' then Some(|s| - 1)
    else LastDot(s[..|s| - 1])
  }

  predicate OnlyDots(s: string) {
    forall k :: 0 <= k < |s| ==> s[k] == '.'
  }

  /**
   * The root `os.path.splitext` returns: everything before the last '.',
   * unless that dot is part of the leading dots of the name (a hidden
   * file such as ".csv" has no extension), in which case the whole name.
   */
  function Stem(name: string): (stem: string)
    ensures stem <= name
    ensures stem != name ==> name[|stem|] == '.' && !OnlyDots(stem)
    ensures stem != name ==> forall j :: |stem| < j < |name| ==> name[j] != '.'
  {
    match LastDot(name)
    case None => name
    case Some(d) => if OnlyDots(name[..d]) then name else name[..d]
  }

  /** A name that `glob('*.csv')` can report has its base as stem. */
  lemma StemOfCsvName(base: string)
    requires base != [] && base[0] != '.'
    ensures Stem(base + ".csv") == base
  {
    var name := base + ".csv";
    var n := |base|;
    assert name[..n + 3] == base + ".cs";
    assert name[..n + 2] == base + ".c";
    assert name[..n + 1] == base + ".";
    assert LastDot(base + ".") == Some(n);
    assert LastDot(base + ".c") == Some(n) by { assert (base + ".c")[..n + 1] == base + "."; }
    assert LastDot(base + ".cs") == Some(n) by { assert (base + ".cs")[..n + 2] == base + ".c"; }
    assert LastDot(name) == Some(n) by { assert name[..n + 3] == base + ".cs"; }
    assert name[..n] == base;
    assert !OnlyDots(base) by { assert base[0] != '.'; }
  }

  // ---------------------------------------------------------------------
  // str.isdigit() and decimal values
  // ---------------------------------------------------------------------

  predicate IsDigit(c: char) {
    '0' <= c <= '9'
  }

  function DigitValue(c: char): (d: nat)
    requires IsDigit(c)
    ensures d < 10
  {
    c as int - '0' as int
  }

  function DigitChar(d: nat): (c: char)
    requires d < 10
    ensures IsDigit(c) && DigitValue(c) == d
  {
    ('0' as int + d) as char
  }

  /** `str.isdigit()`: a non-empty string of digits. */
  predicate IsDigitString(s: string) {
    |s| > 0 && forall i :: 0 <= i < |s| ==> IsDigit(s[i])
  }

  predicate DigitsOrUnderscores(s: string) {
    forall i :: 0 <= i < |s| ==> IsDigit(s[i]) || s[i] == '_'
  }

  /** The decimal value of `s`, most significant digit first; underscores are skipped. */
  function DecimalValue(s: string): nat
    requires DigitsOrUnderscores(s)
  {
    if s == [] then 0
    else if s[|s| - 1] == '_' then DecimalValue(s[..|s| - 1])
    else 10 * DecimalValue(s[..|s| - 1]) + DigitValue(s[|s| - 1])
  }

  /** `str(n)` for a natural number. */
  function Decimal(n: nat): (s: string)
    ensures IsDigitString(s)
  {
    if n < 10 then [DigitChar(n)] else Decimal(n / 10) + [DigitChar(n % 10)]
  }

  /** Reading back the digits `str` writes gives the number. */
  lemma {:induction false} DecimalRoundTrip(n: nat)
    ensures DecimalValue(Decimal(n)) == n
  {
    var s := Decimal(n);
    if n < 10 {
      assert s[..0] == [];
    } else {
      assert s[..|s| - 1] == Decimal(n / 10);
      DecimalRoundTrip(n / 10);
    }
  }

  // ---------------------------------------------------------------------
  // int(s)
  // ---------------------------------------------------------------------

  /**
   * The characters `int()` skips around a number: the ASCII whitespace
   * characters and the non-ASCII characters Unicode classes as whitespace.
   */
  predicate IsSpace(c: char) {
    var k := c as int;
    (9 <= k <= 13) || k == 32 || k == 0x85 || k == 0xA0 || k == 0x1680 ||
    (0x2000 <= k <= 0x200A) || k == 0x2028 || k == 0x2029 || k == 0x202F ||
    k == 0x205F || k == 0x3000
  }

  /** The number of whitespace characters `s` starts with. */
  function Lead(s: string): (n: nat)
    ensures n <= |s|
    ensures forall k :: 0 <= k < n ==> IsSpace(s[k])
    ensures n < |s| ==> !IsSpace(s[n])
  {
    if s == [] || !IsSpace(s[0]) then 0 else 1 + Lead(s[1..])
  }

  /** The number of whitespace characters `s` ends with. */
  function Trail(s: string): (n: nat)
    ensures n <= |s|
    ensures forall k :: |s| - n <= k < |s| ==> IsSpace(s[k])
    ensures n < |s| ==> !IsSpace(s[|s| - 1 - n])
  {
    if s == [] || !IsSpace(s[|s| - 1]) then 0 else 1 + Trail(s[..|s| - 1])
  }

  /**
   * The digit part of a base-10 integer literal: digits, where a single
   * underscore may separate two digits.
   */
  predicate IsDigitGroups(s: string) {
    && |s| > 0
    && IsDigit(s[0])
    && DigitsOrUnderscores(s)
    && forall i :: 0 <= i < |s| && s[i] == '_' ==> i + 1 < |s| && IsDigit(s[i + 1])
  }

  /** `s` without the whitespace `int()` ignores on either side. */
  function Strip(s: string): (t: string)
    ensures t == [] || (!IsSpace(t[0]) && !IsSpace(t[|t| - 1]))
    ensures t == [] <==> Lead(s) == |s|
    ensures Lead(s) + |t| <= |s|
    ensures forall j :: 0 <= j < |t| ==> t[j] == s[Lead(s) + j]
    ensures forall j :: Lead(s) + |t| <= j < |s| ==> IsSpace(s[j])
  {
    if Lead(s) == |s| then [] else s[Lead(s)..|s| - Trail(s)]
  }

  lemma StripUnspaced(s: string)
    requires s != [] && !IsSpace(s[0]) && !IsSpace(s[|s| - 1])
    ensures Strip(s) == s
  {
    assert Lead(s) == 0 && Trail(s) == 0;
  }

  /** A literal without surrounding whitespace: an optional sign, then the digit groups. */
  function ParseLiteral(t: string): Option<int> {
    if |t| > 0 && (t[0] == '+' || t[0] == '-') then
      if IsDigitGroups(t[1..]) then
        var v: int := DecimalValue(t[1..]);
        Some(if t[0] == '-' then -v else v)
      else None
    else if IsDigitGroups(t) then Some(DecimalValue(t))
    else None
  }

  /**
   * `int(s)` on a string: surrounding whitespace is ignored, then an
   * optional sign and the digit groups; anything else raises ValueError,
   * modelled as None. Leading zeros are accepted, as `int` does in base 10.
   */
  function ParseInt(s: string): (r: Option<int>)
    ensures r.Some? ==> exists k :: 0 <= k < |s| && IsDigit(s[k])
  {
    var t := Strip(s);
    var r := ParseLiteral(t);
    if r.Some? then
      var j := if IsDigit(t[0]) then 0 else 1;
      assert IsDigit(s[Lead(s) + j]);
      r
    else r
  }

  /** A whitespace prefix is exactly what `Lead` counts when a non-space or nothing follows it. */
  lemma {:induction false} LeadPadded(w: string, r: string)
    requires forall k :: 0 <= k < |w| ==> IsSpace(w[k])
    requires r == [] || !IsSpace(r[0])
    ensures Lead(w + r) == |w|
  {
    if w != [] {
      assert (w + r)[1..] == w[1..] + r;
      LeadPadded(w[1..], r);
    }
  }

  /** A whitespace suffix is exactly what `Trail` counts when a non-space or nothing precedes it. */
  lemma {:induction false} TrailPadded(r: string, w: string)
    requires forall k :: 0 <= k < |w| ==> IsSpace(w[k])
    requires r == [] || !IsSpace(r[|r| - 1])
    ensures Trail(r + w) == |w|
  {
    if w != [] {
      assert (r + w)[..|r + w| - 1] == r + w[..|w| - 1];
      TrailPadded(r, w[..|w| - 1]);
    }
  }

  /** Whitespace on either side of a literal is removed, and nothing else. */
  lemma StripPadded(before: string, t: string, after: string)
    requires forall k :: 0 <= k < |before| ==> IsSpace(before[k])
    requires forall k :: 0 <= k < |after| ==> IsSpace(after[k])
    requires t == [] || (!IsSpace(t[0]) && !IsSpace(t[|t| - 1]))
    ensures Strip(before + t + after) == t
  {
    var s := before + t + after;
    if t == [] {
      assert s == (before + after) + [];
      LeadPadded(before + after, []);
    } else {
      assert s == before + (t + after);
      LeadPadded(before, t + after);
      TrailPadded(before + t, after);
      assert s[|before|..|s| - |after|] == t;
    }
  }

  /** `int` ignores whitespace around the literal: the padded string parses as the bare literal. */
  lemma ParseIntPadded(before: string, t: string, after: string)
    requires forall k :: 0 <= k < |before| ==> IsSpace(before[k])
    requires forall k :: 0 <= k < |after| ==> IsSpace(after[k])
    requires t == [] || (!IsSpace(t[0]) && !IsSpace(t[|t| - 1]))
    ensures ParseInt(before + t + after) == ParseLiteral(t)
  {
    StripPadded(before, t, after);
  }

  /** `str(i)` for any integer. */
  function ShowInt(i: int): string {
    if i < 0 then "-" + Decimal(-i) else Decimal(i)
  }

  /** `int(str(i)) == i`. */
  lemma ParseIntShowInt(i: int)
    ensures ParseInt(ShowInt(i)) == Some(i)
  {
    if i < 0 {
      var n: nat := -i;
      var d := Decimal(n);
      NegativeDigits(d);
      DecimalRoundTrip(n);
      assert ShowInt(i) == "-" + d;
    } else {
      var d := Decimal(i);
      ParseIntOfDigits(d);
      DecimalRoundTrip(i);
      assert ShowInt(i) == d;
    }
  }

  lemma NegativeDigits(d: string)
    requires IsDigitString(d)
    ensures ParseInt("-" + d) == Some(-(DecimalValue(d) as int))
  {
    var s := "-" + d;
    assert !IsSpace(s[0]) && !IsSpace(s[|s| - 1]) by {
      assert s[|s| - 1] == d[|d| - 1];
    }
    ParseIntPadded([], s, []);
    assert [] + s + [] == s;
    NegativeLiteral(d);
  }

  lemma NegativeLiteral(d: string)
    requires IsDigitString(d)
    ensures ParseLiteral("-" + d) == Some(-(DecimalValue(d) as int))
  {
    var s := "-" + d;
    assert s[0] == '-' && s[1..] == d;
    assert IsDigitGroups(d);
  }

  /** On a stem that passes `isdigit`, `int` succeeds with the decimal value of the digits. */
  lemma ParseIntOfDigits(s: string)
    requires IsDigitString(s)
    ensures ParseInt(s) == Some(DecimalValue(s))
  {
    assert Strip(s) == s by {
      StripUnspaced(s);
    }
    UnsignedLiteral(s);
  }

  lemma UnsignedLiteral(s: string)
    requires IsDigitString(s)
    ensures ParseLiteral(s) == Some(DecimalValue(s))
  {
    assert IsDigitGroups(s) && s[0] != '+' && s[0] != '-';
  }

  /**
   * The integer literals `int` accepts once the whitespace is stripped: an
   * optional sign, then digits with single underscores between them,
   * starting and ending with a digit.
   */
  predicate IntegerShape(t: string) {
    && |t| > 0
    && IsDigit(t[|t| - 1])
    && (IsDigit(t[0]) || (|t| > 1 && (t[0] == '+' || t[0] == '-') && IsDigit(t[1])))
    && (forall j :: 0 < j < |t| ==> IsDigit(t[j]) || t[j] == '_')
    && (forall j :: 0 <= j < |t| - 1 && t[j] == '_' ==> IsDigit(t[j + 1]))
  }

  /** `int(s)` succeeds exactly when the stripped string has the shape of an integer literal. */
  lemma ParseIntShape(s: string)
    ensures ParseInt(s).Some? <==> IntegerShape(Strip(s))
  {
    var t := Strip(s);
    if |t| > 0 && (t[0] == '+' || t[0] == '-') {
      SignedShape(t);
    } else {
      UnsignedShape(t);
    }
  }

  /** A signed literal is the sign followed by digit groups. */
  lemma SignedShape(t: string)
    requires |t| > 0 && (t[0] == '+' || t[0] == '-')
    ensures IsDigitGroups(t[1..]) <==> IntegerShape(t)
  {
    var u := t[1..];
    assert forall j :: 1 <= j < |t| ==> t[j] == u[j - 1];
    if IsDigitGroups(u) {
      assert u[|u| - 1] != '_';
    }
    if IntegerShape(t) {
      forall i | 0 <= i < |u|
        ensures IsDigit(u[i]) || u[i] == '_'
      {
        assert u[i] == t[i + 1];
      }
    }
  }

  /** An unsigned literal is a run of digit groups. */
  lemma UnsignedShape(t: string)
    requires !(|t| > 0 && (t[0] == '+' || t[0] == '-'))
    ensures IsDigitGroups(t) <==> IntegerShape(t)
  {
    if IsDigitGroups(t) {
      assert t[|t| - 1] != '_';
    }
  }

  /** A string with no whitespace at its ends is rejected when it is not shaped like an integer literal. */
  lemma RejectsUnshaped(s: string)
    requires s != [] && !IsSpace(s[0]) && !IsSpace(s[|s| - 1])
    requires !IntegerShape(s)
    ensures ParseInt(s) == None
  {
    StripUnspaced(s);
    ParseIntShape(s);
  }

  /** Stems with a digit that are still not integer literals make `int` raise. */
  lemma NonIntegerStems()
    ensures ParseInt("run3") == None
    ensures ParseInt("1.5") == None
    ensures ParseInt("3a") == None
  {
    RejectsUnshaped("run3");
    assert "1.5"[1] == '.';
    RejectsUnshaped("1.5");
    RejectsUnshaped("3a");
  }

  /** An underscore must stand between two digits, and a sign needs digits after it. */
  lemma MisplacedUnderscores()
    ensures ParseInt("1_") == None
    ensures ParseInt("1__2") == None
    ensures ParseInt("_1") == None
    ensures ParseInt("-") == None
  {
    RejectsUnshaped("1_");
    assert "1__2"[1] == '_' && "1__2"[2] == '_';
    RejectsUnshaped("1__2");
    RejectsUnshaped("_1");
    RejectsUnshaped("-");
  }

  /** `int` rejects every string without a digit in it. */
  lemma ParseIntNeedsDigit(s: string)
    requires forall k :: 0 <= k < |s| ==> !IsDigit(s[k])
    ensures ParseInt(s) == None
  {
    var t := Strip(s);
    if |t| > 0 {
      assert !IsDigit(t[0]);
      if |t| > 1 {
        assert !IsDigit(t[1..][0]);
      }
    }
  }
}

=== FILE: wrappers.dfy ===
/** Failure-carrying values shared by the modules of this model. */
module Wrappers {

  /** A value that may be missing. */
  datatype Option<+T> = None | Some(value: T)

  /** The outcome of a step that either yields a value or aborts the run with an error. */
  datatype Result<+T, +E> = Ok(value: T) | Err(error: E)
}
